=== FILE: README.md ===
# Registration form credential checks, in Dafny

This project models the client-side credential validation of the registration page
of a consumer web site (`RegisterPage` in `src/app/register/page.jsx`). It covers
the following checks:

- the **strength scorer**, which awards one point for each of four rules: length
  8 to 30, an ASCII digit, an ASCII letter, and a character that is neither;
- the **forbidden-pattern check**, which lower-cases the password and looks for
  "12345", "password", "admin", "qwerty" or "abc123";
- the pure part of the **breach lookup** against the Pwned Passwords range API
  (k-anonymity). The SHA-1 digest is split into a five-character prefix, which is the
  only part sent, and a suffix. The suffix is then searched for among the `SUFFIX:COUNT`
  lines of the response;
- the **password-confirmation match**, the **birth-date range check**
  (1960-01-01 to 2006-12-31, both included), and the strength **labels and colours**;
- the phone field's **digit filter**;
- the **form state**: the component's `useState` fields, the handlers that update
  them, and the condition that enables the submit button.

Modules, one per component:

| file | module | what it holds |
|---|---|---|
| wrappers.dfy | `Wrappers` | `Option`, standing for JavaScript `null` and for a failed request |
| chars.dfy | `Chars` | the ASCII character classes (digit, letter, symbol) shared by the other modules |
| strength.dfy | `Strength` | the four rules, `Score`, and its counting lemmas |
| patterns.dfy | `Patterns` | ASCII lower-casing, `includes`, the deny-list check |
| breach.dfy | `Breach` | `substring`, digest split, request URL, `split`/join, hash field, `IsPwned` |
| birthdate.dfy | `BirthDate` | `YYYY-MM-DD` parsing and printing, the allowed range |
| display.dfy | `Display` | strength label, bar and text colours, bar width, checklist colours |
| phone.dfy | `Phone` | the digit filter of the phone field |
| form.dfy | `Form` | class `RegisterForm`: fields, handlers, submit condition |

The handlers and `checkPasswordStrength` change component state step by step. They are
methods of the class `Form.RegisterForm`, with `modifies` clauses and a `Valid()`
invariant that every handler keeps. The invariant says four things:

- the strength is the score of the current password;
- the match flag agrees with the two password fields;
- once a birth date was entered, its flag agrees with the range check;
- the warning is empty or the breach message.

The remaining logic is expressions in the source, so it is modelled as functions
with lemmas.

Behaviours of the code worth stating:

- The suffix comparison is exact and case-sensitive (`hash === hashSuffix`).
  `Breach.LowerCaseListingNotRecognised` shows a lower-case listing that is not
  recognised.
- `fetch` does not reject on a non-2xx status, so such a response body is parsed like
  any other. Only a rejected `fetch` or `text()` yields "not breached" without parsing.
- The submit condition tests the token's truthiness. An empty-string token disables the
  button just as `null` does.
- The SHA-1 digest of "password" is `5BAA61E4C9B93F3F0682250B6CF8331B7EE68FD8`. Its
  suffix is `1E4C9B93F3F0682250B6CF8331B7EE68FD8`.
- The forbidden-pattern warning is visible only while the breach request is pending.
  After the request, the warning is either the breach message or empty
  (`OnPasswordChange` returns the interim warning as `interimWarning`).
- The password handler recomputes the match flag only after the breach request
  completes, against the confirmation value held when the password was typed. While a
  request is pending, the flag still describes the previous password. A confirmation
  typed during the wait is overwritten when the response arrives. So the submit button
  and the mismatch message can be wrong both during and after the request (see "Left
  out").
- The strength is scored on the password as typed, never on its lower-cased copy,
  which only the pattern search uses (`Form.RegisterForm.OnPasswordChange` ensures
  `strength == Score(newPassword)`).
- Neither the strength score, the breach warning nor the birth date takes part in
  enabling the submit button (`Form.WeakBreachedPasswordCanBeSubmitted`).

## Model

| member | source | states |
|---|---|---|
| Strength.SatisfiedRules | src/app/register/page.jsx:355-384 | the rule breakdown holds exactly the rules the password meets, a subset of the four |
| Strength.ScoreIsSumOfRules | src/app/register/page.jsx:23-31 | the score is the sum of four independent one-point tests (length 8..30, digit, letter, non-alphanumeric) |
| Strength.ScoreAtMostFour | src/app/register/page.jsx:24-29 | the score never exceeds 4 |
| Strength.ScoreFourIffAllRules | src/app/register/page.jsx:26-29 | the score is 4 exactly when all four rules hold |
| Strength.ScoreMonotone | src/app/register/page.jsx:26-29 | a password meeting a superset of another's rules scores at least as much |
| Strength.ScoreZeroIffEmpty | src/app/register/page.jsx:24-29 | only the empty password scores 0, because every character is a digit, a letter or a symbol |
| Patterns.IncludesIffOccurs | src/app/register/page.jsx:44 | `includes` holds exactly when the pattern occurs at some offset |
| Patterns.ForbiddenIffOccurs | src/app/register/page.jsx:43-45 | the flag holds exactly when one of the five deny-listed words occurs in the lower-cased password |
| Patterns.ForbiddenIgnoresCase | src/app/register/page.jsx:44 | a password and its lower-cased form are flagged alike |
| Patterns.ForbiddenSurvivesExtension | src/app/register/page.jsx:43-45 | adding characters before or after a flagged password keeps it flagged |
| Patterns.CapitalisedPasswordIsFlagged | src/app/register/page.jsx:144 | "Password1!" is flagged (it contains "password" once lower-cased) |
| Breach.Substring | src/app/register/page.jsx:151-152 | within bounds `substring` is the slice between the two offsets |
| Breach.SplitDigest | src/app/register/page.jsx:150-152 | prefix followed by suffix is the digest again, and the prefix has five characters (fewer only for a shorter string) |
| Breach.SplitDigestOfDigest | src/app/register/page.jsx:148-152 | for a 40-character upper-case hex digest: the prefix is its first 5 characters and the suffix is the remaining 35, which contain no ':' or newline |
| Breach.RequestUrl | src/app/register/page.jsx:156-158 | the URL is the range endpoint followed by the first five digest characters |
| Breach.RequestRevealsOnlyPrefix | src/app/register/page.jsx:156-158 | two digests produce the same request exactly when their five-character prefixes agree |
| Breach.SplitPiecesLackSeparator | src/app/register/page.jsx:162 | no piece of `split` contains the separator |
| Breach.JoinSplit | src/app/register/page.jsx:162 | joining the pieces of `split` with the separator gives the original text |
| Breach.SplitJoin | src/app/register/page.jsx:162 | splitting pieces joined by a separator they lack gives those pieces back |
| Breach.HashField | src/app/register/page.jsx:163 | the hash field is the longest prefix of the line without ':'; it is the whole line or is followed by ':' |
| Breach.IsPwned | src/app/register/page.jsx:146-172 | a failed request yields false; otherwise the result is true exactly when some line's hash field equals the suffix |
| Breach.HashFieldOfRecord | src/app/register/page.jsx:163-164 | the hash field of a `SUFFIX:COUNT` line is its suffix |
| Breach.ListedIffAmongRecords | src/app/register/page.jsx:159-167 | for a response of well-formed `SUFFIX:COUNT` lines, the lookup reports a breach exactly when the digest's suffix is among the listed suffixes |
| Breach.ListedSuffixIsReported | src/app/register/page.jsx:162-167 | a response listing the digest's suffix on one of its lines is reported as breached |
| Breach.LowerCaseListingNotRecognised | src/app/register/page.jsx:164 | the comparison is exact: the suffix of "password" listed in lower case is not recognised |
| Breach.KnownBreachedPasswordIsReported | src/app/register/page.jsx:146-167 | the suffix of the digest of "password" is `1E4C9B93F3F0682250B6CF8331B7EE68FD8`, and that digest is reported as breached when the response lists its suffix among other lines |
| BirthDate.ParseIsoDate | src/app/register/page.jsx:91 | a value that parses has the `YYYY-MM-DD` shape and names a real calendar day |
| BirthDate.ParseFormat | src/app/register/page.jsx:91 | reading back the text of a calendar date gives the date |
| BirthDate.FormatParse | src/app/register/page.jsx:91 | a value that parses is exactly the text of the date it parses to |
| BirthDate.InRangeIffYear | src/app/register/page.jsx:89-93 | a calendar date is in range exactly when its year is 1960..2006 |
| BirthDate.AcceptedIffDateText | src/app/register/page.jsx:85-97 | a value is accepted exactly when it is the text of a calendar date of the years 1960..2006 |
| BirthDate.EmptyValueRejected | src/app/register/page.jsx:91-96 | a cleared (empty) value is rejected |
| BirthDate.BoundsIncluded | src/app/register/page.jsx:89-93 | "1960-01-01" and "2006-12-31" are accepted |
| BirthDate.NeighboursExcluded | src/app/register/page.jsx:89-96 | "1959-12-31" and "2007-01-01" are rejected |
| Display.LevelsAreDistinct | src/app/register/page.jsx:101-125 | scores 1..4 get distinct, non-blank labels, bar colours and label colours |
| Display.OtherValuesAreBlank | src/app/register/page.jsx:101-125 | any other value gets an empty label, a gray bar and gray text |
| Display.PasswordDisplay | src/app/register/page.jsx:310-317 | the label is blank exactly for the empty password; the bar width is 0..100 and is 100 exactly when all rules hold |
| Display.BarWidthMonotone | src/app/register/page.jsx:313 | meeting more rules never shortens the bar |
| Display.ChecklistAgreesWithScore | src/app/register/page.jsx:350-387 | the checklist lines shown as met are exactly the satisfied rules, and their number is the score |
| Phone.DigitsOnlyYieldsDigits | src/app/register/page.jsx:228-230 | the filtered value has only digits and is no longer than the input |
| Phone.DigitsOnlyKeepsDigitStrings | src/app/register/page.jsx:229 | the filter leaves a value unchanged exactly when it is all digits |
| Phone.DigitsOnlyIdempotent | src/app/register/page.jsx:229 | filtering twice is filtering once |
| Phone.DigitsOnlyAppend | src/app/register/page.jsx:229 | filtering a concatenation filters each part |
| Phone.DigitsOnlyOfChar | src/app/register/page.jsx:229 | a single character is kept when it is a digit and removed otherwise; with the previous row this fixes the filter's result on every value |
| Phone.DigitsOnlyCounts | src/app/register/page.jsx:229 | each digit occurs in the result as often as in the input, and no other character occurs |
| Form.MatchIffEmptyOrEqual | src/app/register/page.jsx:76-82 | the fields match exactly when either is empty or both are equal; the relation is symmetric |
| Form.RegisterForm.constructor | src/app/register/page.jsx:9-15 | the initial state: empty fields, strength 0, no warning, match and birth date flags true, no token; it satisfies the invariant |
| Form.RegisterForm.SubmitGate | src/app/register/page.jsx:398-404 | in a consistent state the button is enabled exactly when either password field is empty or both agree, and a token is present |
| Form.RegisterForm.OnRecaptchaChange | src/app/register/page.jsx:18-20 | stores the token (`None` on expiry); the button is then enabled exactly when the passwords match and the token is present |
| Form.RegisterForm.CheckPasswordStrength | src/app/register/page.jsx:23-32 | the counter stored in `strength` equals the password's score |
| Form.RegisterForm.CheckPasswordMatch | src/app/register/page.jsx:76-82 | `passwordMatch` is false exactly when both values are non-empty and differ |
| Form.RegisterForm.OnPasswordChange | src/app/register/page.jsx:37-66 | stores the password and its score; the interim warning is the pattern message exactly when a forbidden pattern occurs; the final warning is the breach message exactly when the lookup reports a breach and is otherwise empty; the match flag is recomputed against the confirmation; nothing else changes |
| Form.RegisterForm.OnConfirmPasswordChange | src/app/register/page.jsx:69-73 | stores the confirmation and recomputes the match flag against the current password; nothing else changes |
| Form.RegisterForm.OnBirthDateChange | src/app/register/page.jsx:85-98 | stores the value; the flag holds exactly when it is the text of a day of 1960..2006; only these two fields change, so the submit button does not |
| Form.WeakBreachedPasswordCanBeSubmitted | src/app/register/page.jsx:401-403 | on a fresh form given a token, a cleared birth date and the password "a" in both fields with its suffix listed by the range response, the button is enabled while the strength is 1, the breach warning is shown and the birth-date flag is false |

## Left out

- SHA-1 (`CryptoJS.SHA1(...).toString().toUpperCase()`, page.jsx line 148) is a
  foreign library call. The digest is an input of `OnPasswordChange` and `IsPwned`, and
  `Breach.IsDigest` describes its shape.
- The network request (`fetch`, `response.text()`) is an input: `Some(body)` when both
  resolved, `None` when either threw. The `console.error` logging is not modelled.
- Asynchronous interleaving of overlapping password changes is not modelled.
  `OnPasswordChange` runs the handler as one step. The source has no guard against a
  late response for an older password. Such a response overwrites the warning. It also
  recomputes the match flag, against that older password and the confirmation value
  captured when its handler started. The match flag can then disagree with the fields
  shown, for example with password "abcd", confirmation "abc" and the button enabled.
- Form.RegisterForm.OnPasswordChange: does not model the form while a breach request is
  pending, beyond returning the interim warning. In that window the password and the
  strength are already updated, but the match flag still describes the previous
  password: with both fields "abc", typing "d" leaves the button enabled and the
  mismatch message hidden while the request is pending, and `fetch` has no timeout.
  Completing the request does not always set the flag right. The handler compares the
  new password with the confirmation it captured when the password was typed. Suppose
  both fields hold "abc", "d" is typed into the password, and then "d" is typed into
  the confirmation before the response. The confirmation handler sets the flag true
  against "abcd", but the response then compares "abcd" with "abc" and sets it false.
  With no request pending and both fields "abcd", the mismatch message shows and the
  button stays disabled until a field is edited again. So the match conjunct of
  `Form.RegisterForm.Valid` and `Form.RegisterForm.SubmitGate` describe the form only
  when no breach request has been pending since either password field last changed.
- Patterns.ToLower: lower-cases ASCII letters only, where `toLowerCase` folds all of
  Unicode. For these five ASCII patterns the verdict is the same: the only non-ASCII
  characters that lower-case to ASCII letters are U+212A (to "k", in no pattern) and
  U+0130 (to "i" followed by U+0307, which can never be followed by "n").
- Strength.LengthOk: counts Dafny characters (Unicode scalar values), where JavaScript
  counts UTF-16 code units. A password with characters outside the Basic Multilingual
  Plane can differ in the length rule.
- BirthDate.ParseIsoDate: reads only the date-only `YYYY-MM-DD` form that the date
  input produces (or ""). Other `Date` string formats, expanded years and time zones
  are not modelled. A day past the end of its month (such as "2006-02-30") is treated as
  an Invalid Date; engines differ on such strings, some rolling them over into the next
  month. The case cannot arise from the field: a date input sanitizes its value to a
  valid date string or to "".
- The bar width is the integer `strength * 25`. The source's floating-point
  `(strength / 4) * 100` gives the same values for whole scores 0..4.
- The password visibility toggles (page.jsx lines 128-141) are trivial UI flags.
- The JSX markup, Tailwind classes other than the strength and checklist colours,
  `Link` routing, and the ReCAPTCHA widget are not part of this model; only the token
  matters. The fields with no logic (name, email, user, secret question) are left out.
- The `pattern`, `maxLength`, `min` and `max` attributes are enforced by the browser
  and are not modelled.

=== FILE: birthdate.dfy ===
/** The birth-date range check of the registration form (`handleBirthDateChange`):
    the value of the date input, a `YYYY-MM-DD` string or "", is accepted when it
    names a day from 1960-01-01 to 2006-12-31, both included. */
module BirthDate {
  import opened Wrappers
  import opened Chars

  datatype Date = Date(year: int, month: int, day: int)

  /** Calendar order: by year, then month, then day. */
  predicate NotAfter(a: Date, b: Date) {
    a.year < b.year ||
    (a.year == b.year && (a.month < b.month || (a.month == b.month && a.day <= b.day)))
  }

  predicate IsLeapYear(y: int) {
    y % 4 == 0 && (y % 100 != 0 || y % 400 == 0)
  }

  function DaysInMonth(y: int, m: int): (n: int)
    requires 1 <= m <= 12
    ensures 28 <= n <= 31
  {
    if m == 2 then (if IsLeapYear(y) then 29 else 28)
    else if m == 4 || m == 6 || m == 9 || m == 11 then 30
    else 31
  }

  /** A day that exists in the proleptic Gregorian calendar, with a four-digit year. */
  predicate IsCalendarDate(d: Date) {
    0 <= d.year <= 9999 && 1 <= d.month <= 12 && 1 <= d.day <= DaysInMonth(d.year, d.month)
  }

  function DigitValue(c: char): (n: int)
    requires IsAsciiDigit(c)
    ensures 0 <= n <= 9
  {
    c as int - '0' as int
  }

  function DigitChar(n: int): (c: char)
    requires 0 <= n <= 9
    ensures IsAsciiDigit(c) && DigitValue(c) == n
  {
    ('0' as int + n) as char
  }

  /** The value of two decimal digits. */
  function Two(s: string): (n: int)
    requires |s| == 2 && AllAsciiDigits(s)
    ensures 0 <= n <= 99
  {
    10 * DigitValue(s[0]) + DigitValue(s[1])
  }

  /** The value of four decimal digits. */
  function Four(s: string): (n: int)
    requires |s| == 4 && AllAsciiDigits(s)
    ensures 0 <= n <= 9999
  {
    100 * Two(s[..2]) + Two(s[2..])
  }

  function Pad2(n: int): (s: string)
    requires 0 <= n <= 99
    ensures |s| == 2 && AllAsciiDigits(s)
  {
    [DigitChar(n / 10), DigitChar(n % 10)]
  }

  function Pad4(n: int): (s: string)
    requires 0 <= n <= 9999
    ensures |s| == 4 && AllAsciiDigits(s)
  {
    Pad2(n / 100) + Pad2(n % 100)
  }

  /** How the `Date` constructor reads a date-only `YYYY-MM-DD` string: four, two and two
      digits separated by hyphens, naming a real day; anything else is an Invalid
      Date, which is `None` here. */
  function ParseIsoDate(s: string): (r: Option<Date>)
    ensures r.Some? ==> IsCalendarDate(r.value)
    ensures r.Some? ==> |s| == 10 && s[4] == '-' && s[7] == '-'
  {
    if |s| == 10 && s[4] == '-' && s[7] == '-' &&
       AllAsciiDigits(s[..4]) && AllAsciiDigits(s[5..7]) && AllAsciiDigits(s[8..])
    then
      var d := Date(Four(s[..4]), Two(s[5..7]), Two(s[8..]));
      if IsCalendarDate(d) then Some(d) else None
    else None
  }

  /** The `YYYY-MM-DD` text of a date, as the date input produces it. */
  function FormatIsoDate(d: Date): (s: string)
    requires 0 <= d.year <= 9999 && 0 <= d.month <= 99 && 0 <= d.day <= 99
    ensures |s| == 10
  {
    Pad4(d.year) + "-" + Pad2(d.month) + "-" + Pad2(d.day)
  }

  lemma TwoPad2(n: int)
    requires 0 <= n <= 99
    ensures Two(Pad2(n)) == n
  {
  }

  lemma Pad2Two(s: string)
    requires |s| == 2 && AllAsciiDigits(s)
    ensures Pad2(Two(s)) == s
  {
    var a, b := DigitValue(s[0]), DigitValue(s[1]);
    assert (10 * a + b) / 10 == a && (10 * a + b) % 10 == b;
    assert DigitChar(a) == s[0] && DigitChar(b) == s[1];
  }

  lemma FourPad4(n: int)
    requires 0 <= n <= 9999
    ensures Four(Pad4(n)) == n
  {
    var s := Pad4(n);
    assert s[..2] == Pad2(n / 100) && s[2..] == Pad2(n % 100);
    TwoPad2(n / 100);
    TwoPad2(n % 100);
  }

  lemma Pad4Four(s: string)
    requires |s| == 4 && AllAsciiDigits(s)
    ensures Pad4(Four(s)) == s
  {
    var hi, lo := Two(s[..2]), Two(s[2..]);
    assert (100 * hi + lo) / 100 == hi && (100 * hi + lo) % 100 == lo;
    Pad2Two(s[..2]);
    Pad2Two(s[2..]);
    assert s == s[..2] + s[2..];
  }

  /** Reading back the text of a calendar date gives the date. */
  lemma ParseFormat(d: Date)
    requires IsCalendarDate(d)
    ensures ParseIsoDate(FormatIsoDate(d)) == Some(d)
  {
    var s := FormatIsoDate(d);
    assert s[..4] == Pad4(d.year);
    assert s[5..7] == Pad2(d.month);
    assert s[8..] == Pad2(d.day);
    FourPad4(d.year);
    TwoPad2(d.month);
    TwoPad2(d.day);
  }

  /** A string that reads as a date is exactly that date's text. */
  lemma FormatParse(s: string)
    requires ParseIsoDate(s).Some?
    ensures FormatIsoDate(ParseIsoDate(s).value) == s
  {
    Pad4Four(s[..4]);
    Pad2Two(s[5..7]);
    Pad2Two(s[8..]);
    assert s == s[..4] + "-" + s[5..7] + "-" + s[8..];
  }

  /** The first and the last day a birth date may fall on. */
  const MinDate: Date := Date(1960, 1, 1)
  const MaxDate: Date := Date(2006, 12, 31)

  /** The range test of the handler: on or after the first day and on or before the
      last; an Invalid Date compares false with everything, so it is out of range. */
  predicate InAllowedRange(d: Option<Date>) {
    match d
    case None => false
    case Some(date) => NotAfter(MinDate, date) && NotAfter(date, MaxDate)
  }

  /** The verdict `handleBirthDateChange` stores for an input value. */
  predicate BirthDateAccepted(value: string) {
    InAllowedRange(ParseIsoDate(value))
  }

  /** Since the bounds are the first and last day of a year, a calendar date is in
      range exactly when its year is 1960..2006. */
  lemma InRangeIffYear(d: Date)
    requires IsCalendarDate(d)
    ensures InAllowedRange(Some(d)) <==> 1960 <= d.year <= 2006
  {
  }

  /** A value is accepted exactly when it is the text of a calendar date of the
      years 1960..2006. */
  lemma AcceptedIffDateText(value: string)
    ensures BirthDateAccepted(value) <==>
      exists d :: IsCalendarDate(d) && 1960 <= d.year <= 2006 && value == FormatIsoDate(d)
  {
    if BirthDateAccepted(value) {
      var d := ParseIsoDate(value).value;
      FormatParse(value);
      assert IsCalendarDate(d) && 1960 <= d.year <= 2006 && value == FormatIsoDate(d);
    }
    if exists d :: IsCalendarDate(d) && 1960 <= d.year <= 2006 && value == FormatIsoDate(d) {
      var d :| IsCalendarDate(d) && 1960 <= d.year <= 2006 && value == FormatIsoDate(d);
      ParseFormat(d);
    }
  }

  /** An empty value (a cleared date input) is rejected. */
  lemma EmptyValueRejected()
    ensures !BirthDateAccepted("")
  {
  }

  /** Both bounds are included. */
  lemma BoundsIncluded()
    ensures BirthDateAccepted("1960-01-01") && BirthDateAccepted("2006-12-31")
  {
    assert FormatIsoDate(MinDate) == "1960-01-01";
    ParseFormat(MinDate);
    assert FormatIsoDate(MaxDate) == "2006-12-31";
    ParseFormat(MaxDate);
  }

  /** The days just outside the bounds are rejected. */
  lemma NeighboursExcluded()
    ensures !BirthDateAccepted("1959-12-31") && !BirthDateAccepted("2007-01-01")
  {
    assert FormatIsoDate(Date(1959, 12, 31)) == "1959-12-31";
    ParseFormat(Date(1959, 12, 31));
    assert FormatIsoDate(Date(2007, 1, 1)) == "2007-01-01";
    ParseFormat(Date(2007, 1, 1));
  }
}

=== FILE: breach.dfy ===
/** The pure part of the breach lookup (`checkPasswordInPwned`): the range query of
    the Pwned Passwords API, where only the first five hex characters of the SHA-1
    digest leave the client and the returned list of suffixes is searched locally. */
module Breach {
  import opened Wrappers

  const RangeEndpoint: string := "https://api.pwnedpasswords.com/range/"
  const PrefixLength: nat := 5

  predicate IsUpperHex(c: char) {
    '0' <= c <= '9' || 'A' <= c <= 'F'
  }

  /** What the SHA-1 digest, rendered as hex and upper-cased, looks like: forty
      upper-case hexadecimal characters. */
  predicate IsDigest(d: string) {
    |d| == 40 && forall i :: 0 <= i < |d| ==> IsUpperHex(d[i])
  }

  function Clamp(n: int, len: nat): (c: nat)
    ensures c <= len
    ensures 0 <= n <= len ==> c == n
  {
    if n < 0 then 0 else if n > len then len else n
  }

  /** `String.prototype.substring(start, end)`: both ends clamped to the string,
      swapped when given in the wrong order. */
  function Substring(s: string, start: int, end: int): (t: string)
    ensures 0 <= start <= end <= |s| ==> t == s[start..end]
  {
    var a := Clamp(start, |s|);
    var b := Clamp(end, |s|);
    if a <= b then s[a..b] else s[b..a]
  }

  /** The digest split into the prefix (the first five characters) and the suffix
      (the rest), each taken with `substring`. */
  function SplitDigest(d: string): (parts: (string, string))
    ensures parts.0 + parts.1 == d
    ensures |parts.0| == if |d| < PrefixLength then |d| else PrefixLength
  {
    (Substring(d, 0, PrefixLength), Substring(d, PrefixLength, |d|))
  }

  /** For a real digest: a five-character prefix and a 35-character suffix, both
      hexadecimal. */
  lemma SplitDigestOfDigest(d: string)
    requires IsDigest(d)
    ensures SplitDigest(d) == (d[..5], d[5..])
    ensures |SplitDigest(d).1| == 35
    ensures ':' !in SplitDigest(d).1 && '\n' !in SplitDigest(d).1
  {
    var suffix := d[5..];
    forall i | 0 <= i < |suffix| ensures suffix[i] != ':' && suffix[i] != '\n' {
      assert suffix[i] == d[i + 5];
    }
  }

  /** The URL fetched: the endpoint followed by the digest's prefix only. */
  function RequestUrl(d: string): (url: string)
    ensures |d| >= PrefixLength ==> url == RangeEndpoint + d[..PrefixLength]
  {
    RangeEndpoint + SplitDigest(d).0
  }

  /** k-anonymity: the request depends on the first five characters of the digest
      and on nothing else, so two digests sharing a prefix send the same request. */
  lemma RequestRevealsOnlyPrefix(d1: string, d2: string)
    requires |d1| >= PrefixLength && |d2| >= PrefixLength
    ensures RequestUrl(d1) == RequestUrl(d2) <==> d1[..PrefixLength] == d2[..PrefixLength]
  {
    if RequestUrl(d1) == RequestUrl(d2) {
      assert d1[..PrefixLength] == RequestUrl(d1)[|RangeEndpoint|..];
      assert d2[..PrefixLength] == RequestUrl(d2)[|RangeEndpoint|..];
    }
  }

  /** `String.prototype.split` with a one-character separator: the pieces between
      separators, always at least one. */
  function Split(s: string, sep: char): (parts: seq<string>)
    ensures |parts| >= 1
    decreases |s|
  {
    if |s| == 0 then [""]
    else
      var rest := Split(s[1..], sep);
      if s[0] == sep then [""] + rest
      else [[s[0]] + rest[0]] + rest[1..]
  }

  /** The inverse of `Split`: the pieces glued back with the separator between them. */
  function Join(parts: seq<string>, sep: char): (s: string)
    requires |parts| >= 1
    decreases |parts|
  {
    if |parts| == 1 then parts[0] else parts[0] + [sep] + Join(parts[1..], sep)
  }

  /** No piece of a split contains the separator. */
  lemma {:induction false} SplitPiecesLackSeparator(s: string, sep: char)
    ensures forall k :: 0 <= k < |Split(s, sep)| ==> sep !in Split(s, sep)[k]
    decreases |s|
  {
    if |s| > 0 {
      SplitPiecesLackSeparator(s[1..], sep);
    }
  }

  /** Gluing the pieces back gives the original text. */
  lemma {:induction false} JoinSplit(s: string, sep: char)
    ensures Join(Split(s, sep), sep) == s
    decreases |s|
  {
    if |s| > 0 {
      var rest := Split(s[1..], sep);
      JoinSplit(s[1..], sep);
      if s[0] == sep {
        assert Split(s, sep)[1..] == rest;
      } else {
        var parts := Split(s, sep);
        if |rest| == 1 {
          assert parts == [[s[0]] + rest[0]];
        } else {
          assert parts[1..] == rest[1..];
          assert Join(parts, sep) == [s[0]] + rest[0] + [sep] + Join(rest[1..], sep);
        }
      }
    }
  }

  /** Splitting glued pieces gives the pieces back, when none contains the separator. */
  lemma {:induction false} SplitJoin(parts: seq<string>, sep: char)
    requires |parts| >= 1
    requires forall k :: 0 <= k < |parts| ==> sep !in parts[k]
    ensures Split(Join(parts, sep), sep) == parts
    decreases |parts|, |parts[0]|
  {
    var head := parts[0];
    if |head| == 0 {
      if |parts| > 1 {
        SplitJoin(parts[1..], sep);
        assert Join(parts, sep) == [sep] + Join(parts[1..], sep);
        assert ([sep] + Join(parts[1..], sep))[1..] == Join(parts[1..], sep);
      }
    } else {
      var tail := [head[1..]] + parts[1..];
      assert tail[1..] == parts[1..];
      SplitJoin(tail, sep);
      assert head == [head[0]] + head[1..];
      assert Join(parts, sep) == [head[0]] + Join(tail, sep) by {
        if |parts| > 1 {
          assert Join(tail, sep) == head[1..] + [sep] + Join(parts[1..], sep);
        }
      }
      assert (Join(parts, sep))[1..] == Join(tail, sep);
      assert head[0] != sep by { assert head[0] in parts[0]; }
    }
  }

  /** The first piece of a line split on ':': the text before the first ':', or the
      whole line when it has none. */
  function HashField(line: string): (hash: string)
    ensures ':' !in hash
    ensures |hash| <= |line| && hash == line[..|hash|]
    ensures |hash| < |line| ==> line[|hash|] == ':'
  {
    SplitPiecesLackSeparator(line, ':');
    JoinSplit(line, ':');
    Split(line, ':')[0]
  }

  /** Some line of the response, split on newlines, has a hash field equal to the
      suffix exactly, letter case included. */
  predicate SuffixListed(suffix: string, data: string) {
    var lines := Split(data, '\n');
    exists k :: 0 <= k < |lines| && HashField(lines[k]) == suffix
  }

  /** `checkPasswordInPwned`, given the digest and the outcome of the request:
      `None` when `fetch` or `response.text()` threw, which yields false. */
  function IsPwned(digest: string, response: Option<string>): (pwned: bool)
    ensures response.None? ==> !pwned
    ensures response.Some? ==> (pwned <==> SuffixListed(SplitDigest(digest).1, response.value))
  {
    match response
    case None => false
    case Some(data) => SuffixListed(SplitDigest(digest).1, data)
  }

  /** One line of the range response: a hash suffix, ':', and the number of times it
      was seen. */
  function Record(suffix: string, count: string): (line: string) {
    suffix + ":" + count
  }

  function Records(entries: seq<(string, string)>): (lines: seq<string>)
    ensures |lines| == |entries|
  {
    seq(|entries|, i requires 0 <= i < |entries| => Record(entries[i].0, entries[i].1))
  }

  predicate WellFormedEntry(e: (string, string)) {
    ':' !in e.0 && '\n' !in e.0 && '\n' !in e.1
  }

  lemma HashFieldOfRecord(suffix: string, count: string)
    requires ':' !in suffix
    ensures HashField(Record(suffix, count)) == suffix
  {
    var line := Record(suffix, count);
    var h := HashField(line);
    assert line[|suffix|] == ':';
    if |h| > |suffix| {
      assert false;
    } else if |h| < |suffix| {
      assert false;
    }
  }

  lemma PasswordDigestIsDigest()
    ensures IsDigest(PasswordDigest)
  {
  }

  /** For a response made of well-formed `SUFFIX:COUNT` lines, the password is
      reported as breached exactly when its suffix is one of the listed suffixes. */
  lemma {:induction false} ListedIffAmongRecords(digest: string, entries: seq<(string, string)>)
    requires |digest| >= PrefixLength
    requires |entries| >= 1
    requires forall k :: 0 <= k < |entries| ==> WellFormedEntry(entries[k])
    ensures IsPwned(digest, Some(Join(Records(entries), '\n'))) <==>
      exists k :: 0 <= k < |entries| && entries[k].0 == digest[PrefixLength..]
  {
    var lines := Records(entries);
    forall k | 0 <= k < |lines| ensures '\n' !in lines[k] {
      assert lines[k] == entries[k].0 + ":" + entries[k].1;
    }
    SplitJoin(lines, '\n');
    forall k | 0 <= k < |entries| ensures HashField(lines[k]) == entries[k].0 {
      HashFieldOfRecord(entries[k].0, entries[k].1);
    }
  }

  /** The SHA-1 digest of "password", as `CryptoJS` renders it in upper case. */
  const PasswordDigest: string := "5BAA61E4C9B93F3F0682250B6CF8331B7EE68FD8"

  /** The comparison is exact: the suffix of "password" listed in lower case is not
      recognised, whatever count follows it. */
  lemma LowerCaseListingNotRecognised(count: string)
    requires '\n' !in count
    ensures !IsPwned(PasswordDigest, Some(Join([Record("1e4c9b93f3f0682250b6cf8331b7ee68fd8", count)], '\n')))
  {
    var listed := "1e4c9b93f3f0682250b6cf8331b7ee68fd8";
    var entries := [(listed, count)];
    assert WellFormedEntry(entries[0]);
    assert listed != PasswordDigest[5..] by {
      assert PasswordDigest[6] == 'E';
      assert PasswordDigest[5..][1] == PasswordDigest[6];
      assert listed[1] == 'e';
    }
    ListedIffAmongRecords(PasswordDigest, entries);
    assert Records(entries) == [Record(listed, count)];
  }

  /** A response listing the digest's suffix on one of its well-formed lines makes
      the lookup report a breach. */
  lemma ListedSuffixIsReported(digest: string, entries: seq<(string, string)>, k: nat)
    requires |digest| >= PrefixLength
    requires forall j :: 0 <= j < |entries| ==> WellFormedEntry(entries[j])
    requires k < |entries| && entries[k].0 == digest[PrefixLength..]
    ensures IsPwned(digest, Some(Join(Records(entries), '\n')))
  {
    ListedIffAmongRecords(digest, entries);
  }

  lemma PasswordSuffixEntryWellFormed(count: string)
    requires '\n' !in count
    ensures WellFormedEntry((PasswordDigest[5..], count))
  {
    PasswordDigestIsDigest();
    SplitDigestOfDigest(PasswordDigest);
  }

  /** The digest of "password" is reported as breached when its range response lists
      its suffix, whatever else the response lists. */
  lemma KnownBreachedPasswordIsReported(other: string, count1: string, count2: string)
    requires WellFormedEntry((other, count1)) && '\n' !in count2
    ensures PasswordDigest[5..] == "1E4C9B93F3F0682250B6CF8331B7EE68FD8"
    ensures IsPwned(PasswordDigest, Some(Join([Record(other, count1), Record(PasswordDigest[5..], count2)], '\n')))
  {
    var entries := [(other, count1), (PasswordDigest[5..], count2)];
    PasswordSuffixEntryWellFormed(count2);
    ListedSuffixIsReported(PasswordDigest, entries, 1);
    assert Records(entries) == [Record(entries[0].0, entries[0].1), Record(entries[1].0, entries[1].1)];
  }
}

=== FILE: chars.dfy ===
/** The character classes the form tests with regular expressions. */
module Chars {

  /** `/\d/`: an ASCII digit. */
  predicate IsAsciiDigit(c: char) {
    '0' <= c <= '9'
  }

  /** `/[a-zA-Z]/`: an ASCII letter. */
  predicate IsAsciiLetter(c: char) {
    'a' <= c <= 'z' || 'A' <= c <= 'Z'
  }

  /** `/[^A-Za-z0-9]/`: any character that is neither an ASCII letter nor an ASCII digit. */
  predicate IsSymbol(c: char) {
    !IsAsciiDigit(c) && !IsAsciiLetter(c)
  }

  /** A string made of ASCII digits only. */
  predicate AllAsciiDigits(s: string) {
    forall i :: 0 <= i < |s| ==> IsAsciiDigit(s[i])
  }
}

=== FILE: display.dfy ===
/** How the form shows a strength score: the label under the bar, the bar and label
    colours, the bar width, and the colour of each item of the requirement checklist. */
module Display {
  import opened Strength

  /** `getStrengthText`. */
  function StrengthText(score: int): (text: string) {
    if score == 1 then "Débil"
    else if score == 2 then "Media"
    else if score == 3 then "Fuerte"
    else if score == 4 then "Muy fuerte"
    else ""
  }

  /** `getStrengthBarColor`. */
  function StrengthBarColor(score: int): (color: string) {
    if score == 1 then "bg-red-500"
    else if score == 2 then "bg-yellow-500"
    else if score == 3 then "bg-blue-500"
    else if score == 4 then "bg-green-500"
    else "bg-gray-300"
  }

  /** `getStrengthTextColor`. */
  function StrengthTextColor(score: int): (color: string) {
    if score == 1 then "text-red-500"
    else if score == 2 then "text-yellow-500"
    else if score == 3 then "text-blue-500"
    else if score == 4 then "text-green-500"
    else "text-gray-500"
  }

  /** The bar's width in percent: a quarter of the bar per point, exact for whole
      scores. */
  function BarWidthPercent(score: int): (percent: int) {
    score * 25
  }

  const Met: string := "text-green-600"
  const Unmet: string := "text-gray-600"

  /** The colour of one line of the requirement checklist. */
  function ChecklistColor(p: string, r: Rule): (color: string) {
    if Holds(r, p) then Met else Unmet
  }

  /** The four scores that can be earned get four different, non-empty labels, bar
      colours and label colours. */
  lemma LevelsAreDistinct(a: int, b: int)
    requires 1 <= a <= 4 && 1 <= b <= 4 && a != b
    ensures StrengthText(a) != "" && StrengthText(a) != StrengthText(b)
    ensures StrengthBarColor(a) != "bg-gray-300" && StrengthBarColor(a) != StrengthBarColor(b)
    ensures StrengthTextColor(a) != "text-gray-500" && StrengthTextColor(a) != StrengthTextColor(b)
  {
  }

  /** Any other value shows no label and gray colours. */
  lemma OtherValuesAreBlank(score: int)
    requires !(1 <= score <= 4)
    ensures StrengthText(score) == ""
    ensures StrengthBarColor(score) == "bg-gray-300"
    ensures StrengthTextColor(score) == "text-gray-500"
  {
  }

  /** For a password, the label is blank exactly when the password is empty, and the
      bar is full exactly when all four rules hold. */
  lemma PasswordDisplay(p: string)
    ensures StrengthText(Score(p)) == "" <==> p == ""
    ensures 0 <= BarWidthPercent(Score(p)) <= 100
    ensures BarWidthPercent(Score(p)) == 100 <==> (LengthOk(p) && HasDigit(p) && HasLetter(p) && HasSymbol(p))
  {
    ScoreAtMostFour(p);
    ScoreZeroIffEmpty(p);
    ScoreFourIffAllRules(p);
  }

  /** The bar grows with the number of rules met. */
  lemma BarWidthMonotone(p: string, q: string)
    requires SatisfiedRules(p) <= SatisfiedRules(q)
    ensures BarWidthPercent(Score(p)) <= BarWidthPercent(Score(q))
  {
    ScoreMonotone(p, q);
  }

  /** The checklist is drawn from the same four tests the score counts: the number of
      lines shown as met is the score. */
  lemma ChecklistAgreesWithScore(p: string)
    ensures (set r | r in AllRules && ChecklistColor(p, r) == Met) == SatisfiedRules(p)
    ensures |set r | r in AllRules && ChecklistColor(p, r) == Met| == Score(p)
  {
    var shownMet := set r | r in AllRules && ChecklistColor(p, r) == Met;
    forall r ensures r in shownMet <==> r in SatisfiedRules(p) {
    }
    SameRules(shownMet, SatisfiedRules(p));
  }
}

=== FILE: form.dfy ===
/** The state of the registration form (`RegisterPage`) and the handlers that update
    it, with the condition that enables the submit button. */
module Form {
  import opened Wrappers
  import opened Chars
  import opened Strength
  import opened Patterns
  import opened Breach
  import opened BirthDate

  const ForbiddenPatternWarning: string := "Tu contraseña contiene patrones comunes o inseguros."
  const PwnedWarning: string :=
    "Tu contraseña ha sido filtrada en una base de datos pública. Por favor, elige otra."

  /** `checkPasswordMatch`: a mismatch is reported only when both fields are filled in
      and differ (an empty string is falsy). */
  predicate PasswordsMatch(password: string, confirm: string) {
    !(password != "" && confirm != "" && password != confirm)
  }

  /** The fields match when either is empty or both are equal; the relation does not
      depend on which field is which. */
  lemma MatchIffEmptyOrEqual(password: string, confirm: string)
    ensures PasswordsMatch(password, confirm) <==> password == "" || confirm == "" || password == confirm
    ensures PasswordsMatch(password, confirm) == PasswordsMatch(confirm, password)
  {
  }

  /** A CAPTCHA token is truthy: neither null (`None`, also what the widget reports when
      a token expires) nor the empty string. */
  predicate TokenPresent(token: Option<string>) {
    token.Some? && token.value != ""
  }

  class RegisterForm {
    var password: string
    var confirmPassword: string
    var strength: nat
    var warning: string
    var passwordMatch: bool
    var birthDate: string
    var birthDateValid: bool
    var recaptchaToken: Option<string>

    /** What the handlers keep true between events. `birthDateValid` starts true for
        the empty initial value, while a value cleared by the user is rejected, so it
        is tied to `birthDate` only once a value was entered. */
    ghost predicate Valid()
      reads this
    {
      strength == Score(password) &&
      passwordMatch == PasswordsMatch(password, confirmPassword) &&
      (birthDate != "" ==> birthDateValid == BirthDateAccepted(birthDate)) &&
      (warning == "" || warning == PwnedWarning)
    }

    /** The initial `useState` values. */
    constructor ()
      ensures Valid()
      ensures password == "" && confirmPassword == "" && strength == 0 && warning == ""
      ensures passwordMatch && birthDate == "" && birthDateValid && recaptchaToken == None
    {
      password := "";
      confirmPassword := "";
      strength := 0;
      warning := "";
      passwordMatch := true;
      birthDate := "";
      birthDateValid := true;
      recaptchaToken := None;
      ScoreZeroIffEmpty("");
    }

    /** The condition on the submit button: it is enabled when the passwords match and
        a CAPTCHA token is present. */
    predicate SubmitEnabled()
      reads this
    {
      passwordMatch && TokenPresent(recaptchaToken)
    }

    /** In a consistent state the button is enabled exactly when either password field
        is empty or both agree, and a token is present; strength, the warning and the
        birth date play no part. */
    lemma SubmitGate()
      requires Valid()
      ensures SubmitEnabled() <==>
        (password == "" || confirmPassword == "" || password == confirmPassword) && TokenPresent(recaptchaToken)
    {
    }

    /** `handleRecaptchaChange`. */
    method OnRecaptchaChange(token: Option<string>)
      requires Valid()
      modifies this`recaptchaToken
      ensures Valid() && recaptchaToken == token
      ensures SubmitEnabled() <==> passwordMatch && TokenPresent(token)
    {
      recaptchaToken := token;
    }

    /** `checkPasswordStrength`: counts the rules with a counter and stores the count. */
    method CheckPasswordStrength(p: string)
      modifies this`strength
      ensures strength == Score(p)
    {
      var count := 0;
      if LengthOk(p) { count := count + 1; }
      if HasDigit(p) { count := count + 1; }
      if HasLetter(p) { count := count + 1; }
      if HasSymbol(p) { count := count + 1; }
      ScoreIsSumOfRules(p);
      strength := count;
    }

    /** `checkPasswordMatch`. */
    method CheckPasswordMatch(p: string, c: string)
      modifies this`passwordMatch
      ensures passwordMatch <==> p == "" || c == "" || p == c
    {
      if p != "" && c != "" && p != c {
        passwordMatch := false;
      } else {
        passwordMatch := true;
      }
    }

    /** `handlePasswordChange`, run as one step: `digest` is the upper-case hex SHA-1
        of `newPassword` and `response` the body returned by the range request, or
        `None` when the request failed. The warning set from the forbidden-pattern check
        is what the form shows while the request is pending; it is returned as
        `interimWarning` and then overwritten by the outcome of the breach lookup. */
    method OnPasswordChange(newPassword: string, digest: string, response: Option<string>)
      returns (interimWarning: string)
      requires Valid()
      modifies this
      ensures Valid()
      ensures password == newPassword && strength == Score(newPassword)
      ensures interimWarning == if ContainsForbiddenPattern(newPassword) then ForbiddenPatternWarning else ""
      ensures warning == if IsPwned(digest, response) then PwnedWarning else ""
      ensures passwordMatch <==> newPassword == "" || confirmPassword == "" || newPassword == confirmPassword
      ensures confirmPassword == old(confirmPassword) && recaptchaToken == old(recaptchaToken)
      ensures birthDate == old(birthDate) && birthDateValid == old(birthDateValid)
      ensures SubmitEnabled() <==> PasswordsMatch(newPassword, confirmPassword) && TokenPresent(recaptchaToken)
    {
      password := newPassword;
      CheckPasswordStrength(newPassword);
      if ContainsForbiddenPattern(newPassword) {
        warning := ForbiddenPatternWarning;
      } else {
        warning := "";
      }
      interimWarning := warning;
      var isPwned := IsPwned(digest, response);
      if isPwned {
        warning := PwnedWarning;
      } else {
        warning := "";
      }
      CheckPasswordMatch(newPassword, confirmPassword);
    }

    /** `handleConfirmPasswordChange`. */
    method OnConfirmPasswordChange(newConfirm: string)
      requires Valid()
      modifies this
      ensures Valid()
      ensures confirmPassword == newConfirm
      ensures passwordMatch <==> password == "" || newConfirm == "" || password == newConfirm
      ensures password == old(password) && strength == old(strength) && warning == old(warning)
      ensures birthDate == old(birthDate) && birthDateValid == old(birthDateValid)
      ensures recaptchaToken == old(recaptchaToken)
    {
      confirmPassword := newConfirm;
      CheckPasswordMatch(password, newConfirm);
    }

    /** `handleBirthDateChange`: stores the value and whether it is a day from
        1960-01-01 to 2006-12-31. Nothing else changes, so neither does the submit
        button. */
    method OnBirthDateChange(value: string)
      requires Valid()
      modifies this`birthDate, this`birthDateValid
      ensures Valid()
      ensures birthDate == value
      ensures birthDateValid <==> exists d :: IsCalendarDate(d) && 1960 <= d.year <= 2006 && value == FormatIsoDate(d)
      ensures SubmitEnabled() == old(SubmitEnabled())
    {
      birthDate := value;
      var userDate := ParseIsoDate(value);
      if InAllowedRange(userDate) {
        birthDateValid := true;
      } else {
        birthDateValid := false;
      }
      AcceptedIffDateText(value);
    }
  }

  /** The gate looks neither at the strength score, nor at the breach lookup, nor at
      the birth date: on a fresh form, with a CAPTCHA token, a cleared birth date and
      the one-letter password "a" typed into both fields while the range response lists
      its suffix, the button is enabled although the password scores 1, the breach
      warning is shown and the birth date is flagged. */
  method WeakBreachedPasswordCanBeSubmitted(digest: string, token: string)
    returns (strength: nat, warning: string, birthDateValid: bool, enabled: bool)
    requires IsDigest(digest) && token != ""
    ensures strength == 1 && warning == PwnedWarning && !birthDateValid && enabled
  {
    var form := new RegisterForm();
    form.OnRecaptchaChange(Some(token));
    form.OnBirthDateChange("");
    form.OnConfirmPasswordChange("a");
    var response := Some(Record(digest[PrefixLength..], "1"));
    var interim := form.OnPasswordChange("a", digest, response);
    assert Score("a") == 1 by {
      ScoreIsSumOfRules("a");
      assert HasLetter("a") by { assert IsAsciiLetter("a"[0]); }
    }
    assert IsPwned(digest, response) by {
      SplitDigestOfDigest(digest);
      ListedSuffixIsReported(digest, [(digest[PrefixLength..], "1")], 0);
      assert Join(Records([(digest[PrefixLength..], "1")]), '\n') == Record(digest[PrefixLength..], "1");
    }
    strength, warning, birthDateValid, enabled := form.strength, form.warning, form.birthDateValid, form.SubmitEnabled();
  }
}

=== FILE: patterns.dfy ===
/** The forbidden-pattern check of the password handler: the lower-cased password
    is searched for any of five fixed substrings. */
module Patterns {

  /** The deny-list, in the order the source declares it. */
  const ForbiddenPatterns: seq<string> := ["12345", "password", "admin", "qwerty", "abc123"]

  /** Lower-cases one ASCII letter; every other character is left alone. */
  function LowerChar(c: char): (l: char)
    ensures 'A' <= c <= 'Z' ==> l as int == c as int + 32
    ensures !('A' <= c <= 'Z') ==> l == c
  {
    if 'A' <= c <= 'Z' then (c as int + 32) as char else c
  }

  /** `toLowerCase`, restricted to the ASCII letters. */
  function ToLower(s: string): (t: string)
    ensures |t| == |s|
    ensures forall i :: 0 <= i < |s| ==> t[i] == LowerChar(s[i])
  {
    seq(|s|, i requires 0 <= i < |s| => LowerChar(s[i]))
  }

  /** `String.prototype.includes`: `pat` occurs in `s` starting at its first
      character, or somewhere in the rest. */
  predicate Includes(s: string, pat: string)
    decreases |s|
  {
    if |s| < |pat| then false
    else s[..|pat|] == pat || Includes(s[1..], pat)
  }

  /** `pat` occurs in `s` at offset `i`. */
  predicate OccursAt(s: string, pat: string, i: int) {
    0 <= i && i + |pat| <= |s| && s[i..i + |pat|] == pat
  }

  /** `Includes` finds exactly the occurrences of `pat`. */
  lemma {:induction false} IncludesIffOccurs(s: string, pat: string)
    ensures Includes(s, pat) <==> exists i :: OccursAt(s, pat, i)
    decreases |s|
  {
    if |s| < |pat| {
      forall i | OccursAt(s, pat, i) ensures false { }
    } else if s[..|pat|] == pat {
      assert OccursAt(s, pat, 0);
    } else {
      IncludesIffOccurs(s[1..], pat);
      if Includes(s[1..], pat) {
        var i :| OccursAt(s[1..], pat, i);
        assert s[1..][i..i + |pat|] == s[i + 1..i + 1 + |pat|];
        assert OccursAt(s, pat, i + 1);
      } else {
        forall i | OccursAt(s, pat, i) ensures false {
          if i > 0 {
            assert s[1..][i - 1..i - 1 + |pat|] == s[i..i + |pat|];
            assert OccursAt(s[1..], pat, i - 1);
          }
        }
      }
    }
  }

  /** Some deny-listed word is included in the lower-cased password. */
  predicate ContainsForbiddenPattern(p: string) {
    exists k :: 0 <= k < |ForbiddenPatterns| && Includes(ToLower(p), ForbiddenPatterns[k])
  }

  /** The flag holds exactly when some deny-listed word occurs, in any letter case,
      somewhere in the password. */
  lemma ForbiddenIffOccurs(p: string)
    ensures ContainsForbiddenPattern(p) <==>
      exists k, i :: 0 <= k < |ForbiddenPatterns| && OccursAt(ToLower(p), ForbiddenPatterns[k], i)
  {
    forall k | 0 <= k < |ForbiddenPatterns| {
      IncludesIffOccurs(ToLower(p), ForbiddenPatterns[k]);
    }
  }

  lemma ToLowerIdempotent(s: string)
    ensures ToLower(ToLower(s)) == ToLower(s)
  {
  }

  /** The check ignores letter case: a password and its lower-cased form are
      flagged alike. */
  lemma ForbiddenIgnoresCase(p: string)
    ensures ContainsForbiddenPattern(ToLower(p)) == ContainsForbiddenPattern(p)
  {
    ToLowerIdempotent(p);
  }

  lemma ToLowerAppend(a: string, b: string)
    ensures ToLower(a + b) == ToLower(a) + ToLower(b)
  {
  }

  /** Adding characters around a flagged password never clears the flag. */
  lemma ForbiddenSurvivesExtension(pre: string, p: string, post: string)
    requires ContainsForbiddenPattern(p)
    ensures ContainsForbiddenPattern(pre + p + post)
  {
    ForbiddenIffOccurs(p);
    var k, i :| 0 <= k < |ForbiddenPatterns| && OccursAt(ToLower(p), ForbiddenPatterns[k], i);
    var pat := ForbiddenPatterns[k];
    ToLowerAppend(pre + p, post);
    ToLowerAppend(pre, p);
    var t := ToLower(pre + p + post);
    assert t == ToLower(pre) + ToLower(p) + ToLower(post);
    assert t[|pre| + i..|pre| + i + |pat|] == ToLower(p)[i..i + |pat|];
    assert OccursAt(t, pat, |pre| + i);
    ForbiddenIffOccurs(pre + p + post);
  }

  /** "Password1!" is flagged, because it contains "password" once lower-cased. */
  lemma CapitalisedPasswordIsFlagged()
    ensures ContainsForbiddenPattern("Password1!")
  {
    var t := ToLower("Password1!");
    assert t == "password1!";
    assert t[..8] == ForbiddenPatterns[1];
    assert Includes(t, ForbiddenPatterns[1]);
  }
}

=== FILE: phone.dfy ===
/** The phone field's input filter, a global regular-expression replace: every character
    that is not an ASCII digit is removed. */
module Phone {
  import opened Chars

  function DigitsOnly(s: string): (t: string)
    decreases |s|
  {
    if |s| == 0 then ""
    else if IsAsciiDigit(s[0]) then [s[0]] + DigitsOnly(s[1..])
    else DigitsOnly(s[1..])
  }

  /** Only digits are left, and never more characters than were typed. */
  lemma {:induction false} DigitsOnlyYieldsDigits(s: string)
    ensures AllAsciiDigits(DigitsOnly(s)) && |DigitsOnly(s)| <= |s|
    decreases |s|
  {
    if |s| > 0 {
      DigitsOnlyYieldsDigits(s[1..]);
    }
  }

  /** A value made of digits only is left as it is, so filtering twice is the same as
      filtering once. */
  lemma {:induction false} DigitsOnlyKeepsDigitStrings(s: string)
    ensures DigitsOnly(s) == s <==> AllAsciiDigits(s)
    decreases |s|
  {
    if |s| > 0 {
      DigitsOnlyKeepsDigitStrings(s[1..]);
      DigitsOnlyYieldsDigits(s[1..]);
      if !IsAsciiDigit(s[0]) {
        assert |DigitsOnly(s)| < |s|;
      }
    }
  }

  lemma DigitsOnlyIdempotent(s: string)
    ensures DigitsOnly(DigitsOnly(s)) == DigitsOnly(s)
  {
    DigitsOnlyYieldsDigits(s);
    DigitsOnlyKeepsDigitStrings(DigitsOnly(s));
  }

  /** The filter works character by character: filtering a concatenation filters each
      part. */
  lemma {:induction false} DigitsOnlyAppend(a: string, b: string)
    ensures DigitsOnly(a + b) == DigitsOnly(a) + DigitsOnly(b)
    decreases |a|
  {
    if |a| > 0 {
      assert (a + b)[1..] == a[1..] + b;
      DigitsOnlyAppend(a[1..], b);
    } else {
      assert a + b == b;
    }
  }

  /** A single character is kept when it is a digit and removed otherwise; with
      `DigitsOnlyAppend` this fixes the result of the filter on every value. */
  lemma DigitsOnlyOfChar(c: char)
    ensures DigitsOnly([c]) == if IsAsciiDigit(c) then [c] else []
  {
  }

  /** Every digit is kept as often as it was typed, and every other character is gone. */
  lemma {:induction false} DigitsOnlyCounts(s: string, c: char)
    ensures multiset(DigitsOnly(s))[c] == if IsAsciiDigit(c) then multiset(s)[c] else 0
    decreases |s|
  {
    if |s| > 0 {
      DigitsOnlyCounts(s[1..], c);
      assert s == [s[0]] + s[1..];
      assert multiset(s) == multiset{s[0]} + multiset(s[1..]);
    }
  }
}

=== FILE: strength.dfy ===
/** The password strength scorer of the registration form (`checkPasswordStrength`)
    and the four policy rules it counts, which also drive the requirement checklist. */
module Strength {
  import opened Chars

  predicate LengthOk(p: string) {
    8 <= |p| <= 30
  }

  predicate HasDigit(p: string) {
    exists i :: 0 <= i < |p| && IsAsciiDigit(p[i])
  }

  predicate HasLetter(p: string) {
    exists i :: 0 <= i < |p| && IsAsciiLetter(p[i])
  }

  predicate HasSymbol(p: string) {
    exists i :: 0 <= i < |p| && IsSymbol(p[i])
  }

  /** The four rules of the password policy, each worth one point. */
  datatype Rule = LengthBetween8And30 | ContainsDigit | ContainsLetter | ContainsSymbol

  const AllRules: set<Rule> := {LengthBetween8And30, ContainsDigit, ContainsLetter, ContainsSymbol}

  predicate Holds(r: Rule, p: string) {
    match r
    case LengthBetween8And30 => LengthOk(p)
    case ContainsDigit => HasDigit(p)
    case ContainsLetter => HasLetter(p)
    case ContainsSymbol => HasSymbol(p)
  }

  /** The rules `p` satisfies: the breakdown shown by the checklist. */
  function SatisfiedRules(p: string): (rs: set<Rule>)
    ensures rs <= AllRules
    ensures forall r :: r in rs <==> Holds(r, p)
  {
    set r | r in AllRules && Holds(r, p)
  }

  /** The strength of a password: the number of rules it satisfies. */
  function Score(p: string): (score: nat) {
    |SatisfiedRules(p)|
  }

  function Bit(b: bool): (n: nat) {
    if b then 1 else 0
  }

  /** `rs` with `r` added when `b` holds. */
  function AddIf(rs: set<Rule>, r: Rule, b: bool): (out: set<Rule>)
    requires r !in rs
    ensures |out| == |rs| + Bit(b)
    ensures forall x :: x in out <==> x in rs || (b && x == r)
  {
    if b then rs + {r} else rs
  }

  lemma SameRules(xs: set<Rule>, ys: set<Rule>)
    requires forall r :: r in xs <==> r in ys
    ensures xs == ys
  {
  }

  /** The score is the sum of four independent one-point tests, in the order the
      source increments its counter. */
  lemma ScoreIsSumOfRules(p: string)
    ensures Score(p) == Bit(LengthOk(p)) + Bit(HasDigit(p)) + Bit(HasLetter(p)) + Bit(HasSymbol(p))
  {
    var rs1 := AddIf({}, LengthBetween8And30, LengthOk(p));
    var rs2 := AddIf(rs1, ContainsDigit, HasDigit(p));
    var rs3 := AddIf(rs2, ContainsLetter, HasLetter(p));
    var rs4 := AddIf(rs3, ContainsSymbol, HasSymbol(p));
    forall r
      ensures r in rs4 <==> r in SatisfiedRules(p)
    {
      match r
      case LengthBetween8And30 =>
      case ContainsDigit =>
      case ContainsLetter =>
      case ContainsSymbol =>
    }
    SameRules(rs4, SatisfiedRules(p));
  }

  /** The score is always in 0..4. */
  lemma ScoreAtMostFour(p: string)
    ensures Score(p) <= 4
  {
    ScoreIsSumOfRules(p);
  }

  /** A score of 4 is reached exactly when all four rules hold. */
  lemma ScoreFourIffAllRules(p: string)
    ensures Score(p) == 4 <==> (LengthOk(p) && HasDigit(p) && HasLetter(p) && HasSymbol(p))
  {
    ScoreIsSumOfRules(p);
  }

  /** Satisfying more rules never lowers the score. */
  lemma ScoreMonotone(p: string, q: string)
    requires SatisfiedRules(p) <= SatisfiedRules(q)
    ensures Score(p) <= Score(q)
  {
    ScoreIsSumOfRules(p);
    ScoreIsSumOfRules(q);
    assert Holds(LengthBetween8And30, p) ==> Holds(LengthBetween8And30, q);
    assert Holds(ContainsDigit, p) ==> Holds(ContainsDigit, q);
    assert Holds(ContainsLetter, p) ==> Holds(ContainsLetter, q);
    assert Holds(ContainsSymbol, p) ==> Holds(ContainsSymbol, q);
  }

  /** Every character is a digit, a letter or a symbol, so only the empty password
      scores 0. */
  lemma ScoreZeroIffEmpty(p: string)
    ensures Score(p) == 0 <==> p == ""
  {
    ScoreIsSumOfRules(p);
    if p != "" {
      if IsAsciiDigit(p[0]) {
        assert HasDigit(p);
      } else if IsAsciiLetter(p[0]) {
        assert HasLetter(p);
      } else {
        assert HasSymbol(p);
      }
    }
  }
}

=== FILE: wrappers.dfy ===
/** The Option datatype, used for JavaScript values that may be null (a CAPTCHA
    token), for a fetch whose promise rejected and for a date that does not parse. */
module Wrappers {

  datatype Option<+T> = None | Some(value: T)
}
